=== FILE: README.md ===
# Student record store — a Dafny model

This project models the record store of the console Student Management
System: the `Student` entity with its one-line CSV form (`toCSV` /
`fromCSV`), the whole-file text format written by `saveToFile` and read by
`loadFromFile`, and the `StudentManager` operations — lookup by id, id
existence, count, case-insensitive name search, delete, partial update,
append — together with the checks `addStudentFromInput` makes before it
appends.

Everything is a pure function over an immutable `Student` datatype and a
`seq<Student>` store. A mutating operation returns an `Edit` (whether it was
applied, and the store after it); the `saveToFile` that follows every
mutation in the source is `Storage.Save` applied to that store. File content
is a string; a missing file is `None`. Console input is passed in as the raw
lines the program would have read.

Modules, leaves first:

- `Results` — `Option` (Java's `null`) and `Result` (a thrown exception).
- `JavaInt` — the 32-bit `int` range, `Integer.parseInt` (optional sign,
  at least one digit, value in range) and the decimal rendering that string
  concatenation uses.
- `JavaString` — `trim` (drops characters up to U+0020 at both ends),
  `toLowerCase` on ASCII letters, `contains`, and `split(",")` with Java's
  rules: a string without a comma comes back whole, otherwise trailing empty
  pieces are dropped.
- `Record` — `Student`, `ToCsv`, `FromCsv` with its error cases in Java's
  evaluation order.
- `Storage` — `Lines` (what successive `BufferedReader.readLine` calls
  return: breaks at `\n`, `\r`, `\r\n`), `Save` (header, then one CSV line per
  record, each ended by the platform separator, LF or CRLF), `Load` (first
  line skipped unconditionally, blank lines skipped, the first malformed line
  fails the whole load), `Open` (missing file gives an empty store).
- `Manager` — `FindById`, `IdExists`, `Count`, `FindByName`, `Delete`,
  `Update` (with the four console lines as an `UpdateInput`), `AddStudent`.
- `Intake` — `ValidateAdd` and `AddFromInput`: the five console lines of
  `addStudentFromInput`, checked in the source's order, then appended.

Behaviour of the code worth knowing, all of it kept in the model:

- `fromCSV` accepts a line that splits into five or more parts and
  ignores the parts after the fifth.
- Add accepts ages 1..150 (`age < 1 || age > 150` is refused), while update
  only sets an age with `0 < age < 150`; the model keeps both bounds
  (`Intake.AgeBoundsDiffer`).
- Update stores any non-blank email line without checking for `@`
  (`Manager.UpdateSkipsEmailCheck`).
- `addStudent` itself checks nothing, not even duplicate ids; the
  duplicate check lives in `addStudentFromInput`, modelled by `ValidateAdd`.
- A malformed record line is not a reported, recoverable error: `fromCSV`
  throws a runtime exception that `loadFromFile` does not catch (only
  `FileNotFoundException` and `IOException` are), so the load as a whole
  fails; `Load` returns a `Failure`.
- Loading does not enforce id uniqueness (`Storage.LoadKeepsDuplicateIds`).
- Nothing escapes a comma inside a field, and the add check lets one
  through in the name; such a record is added and saved but does not load
  back as itself: the load fails, or yields a record with shifted fields
  (`Intake.CommaNameNotReloaded`, `Storage.CommaInNameNotReloaded`).

## Model

| member | source | states |
|---|---|---|
| JavaInt.ToString | StudentManagementSystem.java:85 | an `int` is rendered as a minus sign exactly when it is negative, followed by decimal digits with no leading zero |
| JavaInt.ParseInt | StudentManagementSystem.java:96-98 | `parseInt` succeeds exactly when, after one optional `+` or `-`, at least one decimal digit follows and nothing else, and the signed value fits in an `int`; the result is that signed value |
| JavaInt.ParseToString | StudentManagementSystem.java:85-98 | parsing the rendering of any 32-bit `int` gives back that `int` |
| JavaString.Trim | StudentManagementSystem.java:201 | `trim` yields the infix of its input that is preceded and followed only by characters up to the space and neither starts nor ends with one; it is empty exactly when every character is such a one |
| JavaString.TrimIdempotent | StudentManagementSystem.java:201-231 | trimming a trimmed line changes nothing |
| JavaString.ToLowerCase | StudentManagementSystem.java:173-176 | lower-casing keeps the length and maps each ASCII capital to its small letter, position by position |
| JavaString.ContainsOccurs | StudentManagementSystem.java:176 | `contains` holds exactly when the needle occurs at some index of the haystack |
| JavaString.Contains | StudentManagementSystem.java:176 | a haystack contains only needles no longer than itself, and a needle of its own length exactly when they are equal |
| JavaString.Split | StudentManagementSystem.java:94 | a string without a comma comes back whole as the only piece; otherwise the pieces are the comma-separated pieces in order with exactly the trailing empty ones dropped, so none holds a comma and the last is not empty |
| JavaString.JoinOfFields | StudentManagementSystem.java:94 | joining the pieces between commas with commas gives back the input; with `Split`'s contract, the split loses nothing but the trailing empty pieces |
| JavaString.SplitOfJoin | StudentManagementSystem.java:94 | `split(",")` recovers comma-free parts joined by commas when there are at least two and the last is not empty |
| Record.ToCsv | StudentManagementSystem.java:84-86 | the CSV line is the five fields id, name, age, grade, email joined by commas, unescaped |
| Record.FromCsv | StudentManagementSystem.java:93-102 | `fromCSV` succeeds exactly when the split yields at least five parts with parts 0 and 2 parsing as `int`s, and the record then holds parts 0 to 4 in field order |
| Record.FromCsvErrorOrder | StudentManagementSystem.java:93-102 | the error reported is the first one Java's evaluation order meets: a missing part 0, a bad id, a missing part 1 or 2, a bad age, a missing part 3 or 4 |
| Record.CsvRoundTrip | StudentManagementSystem.java:84-102 | a record with comma-free name, grade and email and a non-empty email reads back from its CSV line unchanged |
| Record.CommaInNameBreaksRoundTrip | StudentManagementSystem.java:84-102 | a record whose name holds a comma never reads back as itself |
| Storage.LinesOfPrinted | StudentManagementSystem.java:264-285 | reading lines back from what `println` wrote, with LF or CRLF, yields the same lines when none holds a line break |
| Storage.Lines | StudentManagementSystem.java:283-285 | no line `readLine` returns holds a line break |
| Storage.ReadLine | StudentManagementSystem.java:286-288 | a blank line contributes no record; any other line contributes the record `fromCSV` builds from it, or fails with the error `fromCSV` throws |
| Storage.ParseRecordsAppend | StudentManagementSystem.java:285-290 | reading is line by line in file order: two stretches of lines give the first's records followed by the second's, and the first failure wins |
| Storage.ParseRecords | StudentManagementSystem.java:285-290 | the loop never yields more records than it reads lines |
| Storage.ParseRecordsFailsIff | StudentManagementSystem.java:285-290 | a stretch of lines fails to load exactly when some non-blank line in it is rejected by `fromCSV` |
| Storage.LoadFailsIff | StudentManagementSystem.java:281-297 | a load fails exactly when some line after the first is non-blank and malformed; the first line is never parsed |
| Storage.LoadAfterSave | StudentManagementSystem.java:263-297 | loading the saved text of records free of commas and line breaks (with non-empty emails) yields the same records in the same order |
| Storage.SavedLineCount | StudentManagementSystem.java:263-271 | whenever no text field holds a line break (commas allowed), the saved text reads back as the header followed by each record's `toCSV` line, in store order, so one line per record |
| Storage.Save | StudentManagementSystem.java:263-266 | the saved text opens with the header line and its line separator |
| Storage.Load | StudentManagementSystem.java:281-297 | an empty file or one of a single line, whatever that line holds, loads as an empty store; a load never yields more records than the lines after the first |
| Storage.OpenAfterSave | StudentManagementSystem.java:117-120 | the constructor starts an empty store when there is no file, and reopening the file the last save wrote for storable records gives back exactly those records |
| Storage.LoadKeepsDuplicateIds | StudentManagementSystem.java:281-290 | some text loads successfully into a store in which two records share an id |
| Storage.CommaInNameNotReloaded | StudentManagementSystem.java:263-290 | after any storable records, a saved record whose name holds a comma makes the file not load back as the saved store |
| Storage.CsvLineShape | StudentManagementSystem.java:84-86 | a record line is a single non-blank line when its text fields hold no line break |
| Manager.IndexOfId | StudentManagementSystem.java:157-164 | the scan stops at the first record with the id, and finds none exactly when no record has it |
| Manager.FindById | StudentManagementSystem.java:157-164 | a record is found exactly when the id is present, and it is the first record with that id |
| Manager.IdExists | StudentManagementSystem.java:304-306 | `isIdExists` holds exactly when some record carries the id |
| Manager.FindByIdUnique | StudentManagementSystem.java:157-164 | with unique ids, lookup returns the one record carrying the id |
| Manager.FindByName | StudentManagementSystem.java:171-181 | every record returned is in the store and matches, every matching record is returned, and the result is no longer than the store |
| Manager.FindByNameAppend | StudentManagementSystem.java:171-181 | the search is an order-preserving filter: searching a concatenation concatenates the searches |
| Manager.FindByNameEmptyQuery | StudentManagementSystem.java:171-181 | an empty query returns the whole store in order |
| Manager.FindByNameNoMatch | StudentManagementSystem.java:171-181 | when no name matches, the result is empty rather than an error |
| Manager.SearchScenario | StudentManagementSystem.java:171-181 | "an" finds "Anna" and "Anand" but not "Bob", in store order |
| Manager.Delete | StudentManagementSystem.java:246-257 | an absent id reports false and changes nothing; a present id reports true and removes exactly the first record with it, the others keeping their order |
| Manager.DeleteKeepsOtherIds | StudentManagementSystem.java:246-257 | every other id is present after a delete exactly when it was before |
| Manager.DeleteRemovesId | StudentManagementSystem.java:246-257 | with unique ids, the deleted id is gone and ids stay unique |
| Manager.AddStudent | StudentManagementSystem.java:126-130 | the record is appended at the end, the existing records untouched, and the count rises by one |
| Manager.CountTracksEdits | StudentManagementSystem.java:312-314 | `getStudentCount` rises by one with an add, falls by one with a delete that finds its id, and is kept by every other delete and by every update |
| Manager.FindAfterAdd | StudentManagementSystem.java:126-130 | a record added under a fresh id is what lookup by that id returns |
| Manager.DeleteUndoesAdd | StudentManagementSystem.java:126-130 | deleting the id just added under a fresh id restores the previous store |
| Manager.NewAge | StudentManagementSystem.java:207-220 | an age is taken from the update line only when the trimmed line parses to a value strictly between 0 and 150 |
| Manager.Amend | StudentManagementSystem.java:199-234 | the id is kept; name, grade and email are replaced by the trimmed line when it is not empty, and the age only as `NewAge` allows |
| Manager.Update | StudentManagementSystem.java:188-239 | an absent id reports false and changes nothing; otherwise true, the length is kept and only the first record with the id is amended |
| Manager.UpdateKeepsIds | StudentManagementSystem.java:188-239 | no update, applied or not, changes the id at any position |
| Manager.UpdateKeepsUniqueIds | StudentManagementSystem.java:188-239 | an update keeps ids unique |
| Manager.UpdateBlankKeepsRecord | StudentManagementSystem.java:199-234 | four blank lines report success and leave the store unchanged |
| Manager.UpdateNameOnly | StudentManagementSystem.java:199-204 | supplying only a name changes only the name |
| Manager.UpdateFixedPoint | StudentManagementSystem.java:188-239 | when amending the found record leaves it as it was, the update reports success and the store is unchanged |
| Manager.UpdateIdempotent | StudentManagementSystem.java:188-239 | applying the same update twice is the same as applying it once |
| Manager.UpdateSkipsEmailCheck | StudentManagementSystem.java:229-234 | an update stores a non-blank email even when it has no `@` |
| Intake.ValidateAdd | StudentManagementSystem.java:404-447 | an add is accepted exactly when the id parses and is not taken, the name is not blank, the age parses and lies in 1..150, the grade is not blank and the email holds `@`; the record then holds the trimmed lines; each refusal names a failing check (the entered id for a duplicate, the entered age for a range error) |
| Intake.AddFromInput | StudentManagementSystem.java:400-453 | a refused add leaves the store unchanged; an accepted one appends the validated record at the end |
| Intake.AddFromInputKeepsUniqueIds | StudentManagementSystem.java:409-448 | a validated add keeps ids unique |
| Intake.AddAllKeepsUniqueIds | StudentManagementSystem.java:409-448 | any sequence of add attempts from a store with unique ids keeps ids unique |
| Intake.DuplicateAddRefused | StudentManagementSystem.java:409-412 | an id already present is refused with the duplicate-id error and the store is unchanged |
| Intake.AgeBoundsDiffer | StudentManagementSystem.java:424-428 | the age line "150", which trims and parses to 150, is never refused by the add check for its range, while the update (bound `newAge < 150`, line 212) keeps no age from it |
| Intake.CommaNameNotReloaded | StudentManagementSystem.java:414-448 | an accepted add, into a store of storable records, whose trimmed name holds a comma yields a store whose saved text does not load back as that store |

## Left out

- The console and menu layer (`main`, `displayMenu`, `getMenuChoice`, the
  `Scanner` prompts, `updateStudentFromInput`, `deleteStudentFromInput` with
  its yes/no confirmation, `searchStudentFromInput`): interactive I/O whose
  only logic is captured by `ValidateAdd`, `Update` and the lookups.
- Printed messages, `viewAllStudents` and `toString`: presentation only.
- Real file access: `FileWriter`, `FileReader`, and an `IOException` during a
  load (the records read before the failure stay in the store) or a save
  (memory and file diverge) are not modelled; file content is a string and a missing file is `None`.
- The save after each mutation is not fused into the operations; it is
  `Storage.Save` applied to the store an operation returns.
- Global statics and `System.exit`.
- A `Scanner` reaching the end of input (`NoSuchElementException`).
- JavaString.ToLowerCase: folds ASCII letters only, and independent of the
  default locale, not the full Unicode, locale-dependent case mapping of
  `String.toLowerCase`.
- JavaInt.ParseInt: accepts ASCII digits only, while `Character.digit`
  also accepts other Unicode decimal digits.
- Storage.LinesOfPrinted: covers the LF and CRLF line separators only.
- Text is a sequence of characters; UTF-16 surrogate pairs and file
  encodings are not modelled.
- `ArrayList.remove(Object)` compares by reference; the model removes the
  record at the index `findStudentById` stopped at, which is the same
  element because no earlier element can be that object.

=== FILE: intake.dfy ===
/** The checks `addStudentFromInput` makes before it calls `addStudent`,
    as a validator over the five console lines it reads. */
module Intake {
  import opened Results
  import opened JavaInt
  import opened JavaString
  import opened Record
  import opened Manager
  import opened Storage

  /** Age bounds accepted when adding, both inclusive. */
  const MinAddAge := 1
  const MaxAddAge := 150

  /** The five lines read for a new student, in the order they are asked
      for: id, name, age, grade, email. */
  datatype AddInput = AddInput(id: string, name: string, age: string, grade: string, email: string)

  /** Why the add is refused, one case per message the source prints. */
  datatype AddError =
    | NotANumber          // the id line or the age line does not parse as an int
    | DuplicateId(id: Int32)
    | EmptyName
    | AgeOutOfRange(age: Int32)
    | EmptyGrade
    | InvalidEmail

  /** Runs the checks in the order the source does, stopping at the first
      that fails; on success, the record built from the trimmed lines. */
  function ValidateAdd(students: seq<Student>, input: AddInput): (r: Result<Student, AddError>)
    ensures r.Success? <==>
      && ParseInt(Trim(input.id)).Some?
      && !HasId(students, ParseInt(Trim(input.id)).value)
      && Trim(input.name) != ""
      && ParseInt(Trim(input.age)).Some?
      && MinAddAge <= ParseInt(Trim(input.age)).value <= MaxAddAge
      && Trim(input.grade) != ""
      && '@' in Trim(input.email)
    ensures r.Success? ==>
      && r.value.id == ParseInt(Trim(input.id)).value
      && r.value.name == Trim(input.name)
      && r.value.age == ParseInt(Trim(input.age)).value
      && r.value.grade == Trim(input.grade)
      && r.value.email == Trim(input.email)
    ensures r.Success? ==>
      !HasId(students, r.value.id) && r.value.name != "" && MinAddAge <= r.value.age <= MaxAddAge &&
      r.value.grade != "" && r.value.email != "" && '@' in r.value.email
    ensures r == Failure(NotANumber) ==>
      ParseInt(Trim(input.id)).None? || ParseInt(Trim(input.age)).None?
    ensures r.Failure? && r.error.DuplicateId? ==>
      ParseInt(Trim(input.id)) == Some(r.error.id) && HasId(students, r.error.id)
    ensures r == Failure(EmptyName) ==> Trim(input.name) == ""
    ensures r == Failure(EmptyGrade) ==> Trim(input.grade) == ""
    ensures r == Failure(InvalidEmail) ==> '@' !in Trim(input.email)
    ensures r.Failure? && r.error.AgeOutOfRange? ==>
      ParseInt(Trim(input.age)) == Some(r.error.age) && !(MinAddAge <= r.error.age <= MaxAddAge)
  {
    match ParseInt(Trim(input.id))
    case None => Failure(NotANumber)
    case Some(id) =>
      if IdExists(students, id) then Failure(DuplicateId(id))
      else
        var name := Trim(input.name);
        if name == "" then Failure(EmptyName)
        else
          match ParseInt(Trim(input.age))
          case None => Failure(NotANumber)
          case Some(age) =>
            if age < MinAddAge || age > MaxAddAge then Failure(AgeOutOfRange(age))
            else
              var grade := Trim(input.grade);
              if grade == "" then Failure(EmptyGrade)
              else
                var email := Trim(input.email);
                if email == "" || '@' !in email then Failure(InvalidEmail)
                else Success(Student(id, name, age, grade, email))
  }

  /** `addStudentFromInput`: validate, then `addStudent`; a refused add
      leaves the store unchanged. */
  function AddFromInput(students: seq<Student>, input: AddInput): (r: Edit)
    ensures r.applied <==> ValidateAdd(students, input).Success?
    ensures !r.applied ==> r.students == students
    ensures r.applied ==>
      |r.students| == |students| + 1 && r.students[..|students|] == students &&
      r.students[|students|] == ValidateAdd(students, input).value
  {
    match ValidateAdd(students, input)
    case Failure(_) => Edit(false, students)
    case Success(s) => Edit(true, AddStudent(students, s))
  }

  /** A validated add keeps ids unique. */
  lemma AddFromInputKeepsUniqueIds(students: seq<Student>, input: AddInput)
    requires UniqueIds(students)
    ensures UniqueIds(AddFromInput(students, input).students)
  {
    var v := ValidateAdd(students, input);
    if v.Success? {
      assert !HasId(students, v.value.id);
      assert AddFromInput(students, input).students == students + [v.value];
      AppendFreshKeepsUniqueIds(students, v.value);
    }
  }

  /** Appending a record whose id is not yet present keeps ids unique. */
  lemma AppendFreshKeepsUniqueIds(students: seq<Student>, s: Student)
    requires UniqueIds(students) && !HasId(students, s.id)
    ensures UniqueIds(students + [s])
  {
    var r := students + [s];
    forall i, j | 0 <= i < j < |r| ensures r[i].id != r[j].id {
      assert r[i] == students[i];
      if j < |students| {
        assert r[j] == students[j];
      }
    }
  }

  /** The store after a session of add attempts, in order. */
  function AddAll(students: seq<Student>, inputs: seq<AddInput>): (r: seq<Student>)
    ensures |students| <= |r| <= |students| + |inputs|
    decreases |inputs|
  {
    if |inputs| == 0 then students
    else AddAll(AddFromInput(students, inputs[0]).students, inputs[1..])
  }

  /** However many add attempts are made, no two records ever share an id. */
  lemma {:induction false} AddAllKeepsUniqueIds(students: seq<Student>, inputs: seq<AddInput>)
    requires UniqueIds(students)
    ensures UniqueIds(AddAll(students, inputs))
    decreases |inputs|
  {
    if |inputs| > 0 {
      AddFromInputKeepsUniqueIds(students, inputs[0]);
      AddAllKeepsUniqueIds(AddFromInput(students, inputs[0]).students, inputs[1..]);
    }
  }

  /** An input naming an id already present is refused with `DuplicateId`
      and changes nothing. */
  lemma DuplicateAddRefused(students: seq<Student>, input: AddInput)
    requires ParseInt(Trim(input.id)).Some? && HasId(students, ParseInt(Trim(input.id)).value)
    ensures ValidateAdd(students, input) == Failure(DuplicateId(ParseInt(Trim(input.id)).value))
    ensures AddFromInput(students, input) == Edit(false, students)
  {
  }

  /** Add and update disagree on the top age: the age line "150" is never
      refused by the add check for its range, but an update ignores it. */
  lemma AgeBoundsDiffer(students: seq<Student>, input: AddInput)
    requires input.age == "150"
    ensures ParseInt(Trim(input.age)) == Some(150)
    ensures NewAge(input.age) == None
    ensures var r := ValidateAdd(students, input); !(r.Failure? && r.error.AgeOutOfRange?)
  {
    AgeLine150();
  }

  lemma AgeLine150()
    ensures ParseInt(Trim("150")) == Some(150)
  {
    TrimUntouched("150");
    ParseDigits150();
  }

  lemma ParseDigits150()
    ensures ParseInt("150") == Some(150)
  {
    assert DigitsValue("150") == 150 by {
      assert "150"[..2] == "15";
      assert "15"[..1] == "1";
    }
  }

  /** The add check does not look for commas: a validated name holding one is
      added after the storable records already present, and the store it
      produces does not load back after a save. */
  lemma CommaNameNotReloaded(students: seq<Student>, input: AddInput, nl: Newline)
    requires forall i :: 0 <= i < |students| ==> Storable(students[i])
    requires AddFromInput(students, input).applied
    requires ',' in Trim(input.name)
    requires OneLine(input.name) && OneLine(input.grade) && OneLine(input.email)
    ensures var after := AddFromInput(students, input).students;
      Load(Save(after, nl)) != Success(after)
  {
    var s := ValidateAdd(students, input).value;
    TrimKeepsOneLine(input.name);
    TrimKeepsOneLine(input.grade);
    TrimKeepsOneLine(input.email);
    assert AddFromInput(students, input).students == students + [s];
    CommaInNameNotReloaded(students, s, nl);
  }

  /** Trimming a line cannot introduce a line break. */
  lemma TrimKeepsOneLine(line: string)
    requires OneLine(line)
    ensures OneLine(Trim(line))
  {
    var t := Trim(line);
    var k: nat :| OccursAt(line, t, k);
    forall i | 0 <= i < |t| ensures !IsLineBreak(t[i]) {
      assert t[i] == line[k + i];
    }
  }
}

=== FILE: javaint.dfy ===
/** Java's 32-bit `int`, `Integer.parseInt` and the decimal rendering used by
    string concatenation (`Integer.toString`). */
module JavaInt {
  import opened Results

  const MinInt32: int := -0x8000_0000
  const MaxInt32: int := 0x7fff_ffff

  /** The values a Java `int` can hold. */
  type Int32 = x: int | -0x8000_0000 <= x <= 0x7fff_ffff

  predicate IsDigit(c: char) {
    '0' <= c <= '9'
  }

  predicate AllDigits(s: string) {
    forall i :: 0 <= i < |s| ==> IsDigit(s[i])
  }

  /** The value of a string of decimal digits, most significant first. */
  function DigitsValue(ds: string): nat
    requires AllDigits(ds)
    decreases |ds|
  {
    if |ds| == 0 then 0
    else DigitsValue(ds[..|ds| - 1]) * 10 + (ds[|ds| - 1] - '0') as int
  }

  /** Decimal rendering of a natural number, without leading zeros. */
  function NatToString(n: nat): (r: string)
    ensures |r| > 0 && AllDigits(r)
    ensures |r| > 1 ==> r[0] != '0'
    decreases n
  {
    if n < 10 then [('0' as int + n) as char]
    else NatToString(n / 10) + [('0' as int + n % 10) as char]
  }

  /** `Integer.toString(x)`: a minus sign for negative values, then the
      digits of the magnitude. */
  function ToString(x: int): (r: string)
    ensures |r| > 0
    ensures x >= 0 ==> AllDigits(r)
    ensures x < 0 ==> r[0] == '-' && AllDigits(r[1..])
    ensures x >= 0 ==> |r| == 1 || r[0] != '0'
    ensures x < 0 ==> |r| >= 2 && r[1] != '0'
  {
    if x < 0 then "-" + NatToString(-x) else NatToString(x)
  }

  /** The characters after an optional single leading sign. */
  function Unsigned(s: string): (ds: string)
    ensures |ds| <= |s| && ds == s[|s| - |ds|..]
    ensures |ds| < |s| <==> |s| > 0 && (s[0] == '-' || s[0] == '+')
  {
    if |s| > 0 && (s[0] == '-' || s[0] == '+') then s[1..] else s
  }

  /** The value a sign and a string of digits denote, before any range check. */
  function SignedValue(s: string): int
    requires AllDigits(Unsigned(s))
  {
    if |s| > 0 && s[0] == '-' then -(DigitsValue(Unsigned(s)) as int) else DigitsValue(Unsigned(s))
  }

  /** `Integer.parseInt(s)` in radix 10: an optional single `+` or `-`, then
      at least one decimal digit, and a value that fits in an `int`;
      anything else is a `NumberFormatException`, modelled as `None`. */
  function ParseInt(s: string): (r: Option<Int32>)
    ensures r.Some? <==>
      |Unsigned(s)| > 0 && AllDigits(Unsigned(s)) && MinInt32 <= SignedValue(s) <= MaxInt32
    ensures r.Some? ==> r.value == SignedValue(s)
    ensures r.Some? ==> |s| > 0 && (IsDigit(s[0]) || s[0] == '+' || s[0] == '-')
    ensures r.Some? && s[0] == '-' ==> r.value <= 0
    ensures r.Some? && s[0] != '-' ==> r.value >= 0
  {
    var ds := Unsigned(s);
    if |ds| == 0 || !AllDigits(ds) then None
    else
      var v := SignedValue(s);
      if MinInt32 <= v <= MaxInt32 then Some(v) else None
  }

  lemma {:induction false} DigitsOfNat(n: nat)
    ensures DigitsValue(NatToString(n)) == n
    decreases n
  {
    if n >= 10 {
      var r := NatToString(n);
      assert r[..|r| - 1] == NatToString(n / 10);
      DigitsOfNat(n / 10);
    }
  }

  /** Parsing what `ToString` renders gives back the same `int`. */
  lemma ParseToString(x: Int32)
    ensures ParseInt(ToString(x)) == Some(x)
  {
    var s := ToString(x);
    if x < 0 {
      var m: nat := -(x as int);
      assert s == "-" + NatToString(m);
      assert s[1..] == NatToString(m);
      DigitsOfNat(m);
      assert DigitsValue(s[1..]) == m;
    } else {
      var m: nat := x as int;
      assert s == NatToString(m);
      DigitsOfNat(m);
      assert !(s[0] == '-' || s[0] == '+');
    }
  }
}

=== FILE: javastring.dfy ===
/** The `java.lang.String` operations the record store relies on: `trim`,
    `toLowerCase` (ASCII letters only), `contains`, and `split(",")`. */
module JavaString {

  /** `trim` drops every character whose code is at most that of the space. */
  predicate IsTrimmable(c: char) {
    c <= ' '
  }

  /** True when `trim()` would leave nothing, which is what `isEmpty()` on a
      trimmed line tests. */
  predicate IsBlank(s: string) {
    forall i :: 0 <= i < |s| ==> IsTrimmable(s[i])
  }

  function TrimStart(s: string): (r: string)
    ensures |r| <= |s| && r == s[|s| - |r|..]
    ensures forall i :: 0 <= i < |s| - |r| ==> IsTrimmable(s[i])
    ensures |r| > 0 ==> !IsTrimmable(r[0])
    decreases |s|
  {
    if |s| > 0 && IsTrimmable(s[0]) then TrimStart(s[1..]) else s
  }

  function TrimEnd(s: string): (r: string)
    ensures |r| <= |s| && r == s[..|r|]
    ensures forall i :: |r| <= i < |s| ==> IsTrimmable(s[i])
    ensures |r| > 0 ==> !IsTrimmable(r[|r| - 1])
    decreases |s|
  {
    if |s| > 0 && IsTrimmable(s[|s| - 1]) then TrimEnd(s[..|s| - 1]) else s
  }

  /** `String.trim()`: the infix left after removing trimmable characters
      from both ends, which neither starts nor ends with one. */
  function Trim(s: string): (r: string)
    ensures r == [] <==> IsBlank(s)
    ensures |r| > 0 ==> !IsTrimmable(r[0]) && !IsTrimmable(r[|r| - 1])
    ensures exists k: nat :: OccursAt(s, r, k) && IsBlank(s[..k]) && IsBlank(s[k + |r|..])
  {
    var t := TrimStart(s);
    var r := TrimEnd(t);
    TrimFacts(s, t, r);
    r
  }

  lemma TrimFacts(s: string, t: string, r: string)
    requires t == TrimStart(s) && r == TrimEnd(t)
    ensures r == [] <==> IsBlank(s)
    ensures |r| > 0 ==> !IsTrimmable(r[0]) && !IsTrimmable(r[|r| - 1])
    ensures exists k: nat :: OccursAt(s, r, k) && IsBlank(s[..k]) && IsBlank(s[k + |r|..])
  {
    TrimInfix(s, t, r);
    TrimmedToNothing(s, t, r);
    if |r| > 0 {
      assert r[0] == t[0];
    }
  }

  lemma TrimInfix(s: string, t: string, r: string)
    requires t == TrimStart(s) && r == TrimEnd(t)
    ensures exists k: nat :: OccursAt(s, r, k) && IsBlank(s[..k]) && IsBlank(s[k + |r|..])
  {
    var k: nat := |s| - |t|;
    assert t == s[k..];
    InfixOfSuffix(s, t, r, k);
    assert OccursAt(s, r, k) && IsBlank(s[..k]) && IsBlank(s[k + |r|..]);
  }

  /** Cutting trimmable characters from the front and then from the back
      leaves an infix with only trimmable characters on either side of it. */
  lemma InfixOfSuffix(s: string, t: string, r: string, k: nat)
    requires k + |t| == |s| && t == s[k..]
    requires forall i :: 0 <= i < k ==> IsTrimmable(s[i])
    requires |r| <= |t| && r == t[..|r|]
    requires forall i :: |r| <= i < |t| ==> IsTrimmable(t[i])
    ensures OccursAt(s, r, k) && IsBlank(s[..k]) && IsBlank(s[k + |r|..])
  {
    var tail := s[k + |r|..];
    forall i | 0 <= i < |tail| ensures IsTrimmable(tail[i]) {
      assert tail[i] == t[|r| + i];
    }
  }

  lemma TrimmedToNothing(s: string, t: string, r: string)
    requires t == TrimStart(s) && r == TrimEnd(t)
    ensures r == [] <==> IsBlank(s)
  {
    if r != [] {
      assert r[0] == t[0] == s[|s| - |t|];
    }
  }

  /** A string that neither starts nor ends with a trimmable character is
      its own trim. */
  lemma TrimUntouched(s: string)
    requires |s| > 0 && !IsTrimmable(s[0]) && !IsTrimmable(s[|s| - 1])
    ensures Trim(s) == s
  {
    assert TrimStart(s) == s;
    assert TrimEnd(s) == s;
  }

  lemma TrimIdempotent(s: string)
    ensures Trim(Trim(s)) == Trim(s)
  {
    var r := Trim(s);
    if |r| > 0 {
      assert TrimStart(r) == r;
      assert TrimEnd(r) == r;
    }
  }

  /** `Character.toLowerCase` restricted to ASCII: `A`..`Z` become `a`..`z`,
      every other character is kept. */
  function LowerChar(c: char): char {
    if 'A' <= c <= 'Z' then (c as int + 32) as char else c
  }

  /** `String.toLowerCase()` on ASCII text. */
  function ToLowerCase(s: string): (r: string)
    ensures |r| == |s|
    ensures forall i :: 0 <= i < |s| ==> r[i] == LowerChar(s[i])
  {
    seq(|s|, i requires 0 <= i < |s| => LowerChar(s[i]))
  }

  /** `needle` appears in `s` starting at index `k`. */
  predicate OccursAt(s: string, needle: string, k: nat) {
    k + |needle| <= |s| && s[k..k + |needle|] == needle
  }

  predicate StartsWith(s: string, prefix: string) {
    |prefix| <= |s| && s[..|prefix|] == prefix
  }

  /** `String.contains`: the needle starts at some position of the haystack,
      tried from the left. */
  predicate Contains(haystack: string, needle: string)
    ensures Contains(haystack, needle) ==> |needle| <= |haystack|
    ensures |needle| == |haystack| ==> (Contains(haystack, needle) <==> needle == haystack)
    decreases |haystack|
  {
    StartsWith(haystack, needle) || (|haystack| > 0 && Contains(haystack[1..], needle))
  }

  /** Contains holds exactly when the needle occurs at some index. */
  lemma {:induction false} ContainsOccurs(haystack: string, needle: string)
    ensures Contains(haystack, needle) <==> exists k: nat :: OccursAt(haystack, needle, k)
    decreases |haystack|
  {
    if StartsWith(haystack, needle) {
      assert OccursAt(haystack, needle, 0);
    } else if |haystack| > 0 {
      var tail := haystack[1..];
      ContainsOccurs(tail, needle);
      if Contains(tail, needle) {
        var k: nat :| OccursAt(tail, needle, k);
        OccursInTail(haystack, needle, k + 1);
      } else {
        forall k: nat | OccursAt(haystack, needle, k) ensures false {
          if k > 0 {
            OccursInTail(haystack, needle, k);
          }
        }
      }
    }
  }

  /** An occurrence past the first position is an occurrence in the tail. */
  lemma OccursInTail(haystack: string, needle: string, k: nat)
    requires 0 < k && |haystack| > 0
    ensures OccursAt(haystack, needle, k) <==> OccursAt(haystack[1..], needle, k - 1)
  {
    if k + |needle| <= |haystack| {
      assert haystack[1..][k - 1..k - 1 + |needle|] == haystack[k..k + |needle|];
    }
  }

  /** The empty string is contained in every string. */
  lemma ContainsEmpty(haystack: string)
    ensures Contains(haystack, "")
  {
    assert StartsWith(haystack, "");
  }

  /** The pieces of `s` between commas, every one kept: one more piece than
      there are commas. */
  function Fields(s: string): (r: seq<string>)
    ensures |r| > 0
    ensures forall i :: 0 <= i < |r| ==> ',' !in r[i]
    decreases |s|
  {
    if |s| == 0 then [""]
    else if s[0] == ',' then [""] + Fields(s[1..])
    else
      var rest := Fields(s[1..]);
      [[s[0]] + rest[0]] + rest[1..]
  }

  /** Drops empty strings from the end, as `split` does with limit zero. */
  function DropTrailingEmpty(parts: seq<string>): (r: seq<string>)
    ensures |r| <= |parts| && r == parts[..|r|]
    ensures |r| > 0 ==> r[|r| - 1] != ""
    ensures forall i :: |r| <= i < |parts| ==> parts[i] == ""
    decreases |parts|
  {
    if |parts| > 0 && parts[|parts| - 1] == "" then DropTrailingEmpty(parts[..|parts| - 1])
    else parts
  }

  /** `s.split(",")`. A string without a comma comes back whole as the only
      element (even when it is empty); otherwise the comma-separated pieces
      with trailing empty pieces removed. */
  function Split(s: string): (r: seq<string>)
    ensures forall i :: 0 <= i < |r| ==> ',' !in r[i]
    ensures ',' in s && |r| > 0 ==> r[|r| - 1] != ""
    ensures ',' !in s ==> r == [s]
    ensures ',' in s ==> |r| <= |Fields(s)| && r == Fields(s)[..|r|]
    ensures ',' in s ==> forall i :: |r| <= i < |Fields(s)| ==> Fields(s)[i] == ""
  {
    if ',' !in s then [s] else DropTrailingEmpty(Fields(s))
  }

  /** The parts joined with a comma between each neighbouring pair. */
  function Join(parts: seq<string>): string
    decreases |parts|
  {
    if |parts| == 0 then ""
    else if |parts| == 1 then parts[0]
    else parts[0] + "," + Join(parts[1..])
  }

  /** Joining the pieces between commas with commas gives back the string. */
  lemma {:induction false} JoinOfFields(s: string)
    ensures Join(Fields(s)) == s
    decreases |s|
  {
    if |s| > 0 {
      var rest := Fields(s[1..]);
      JoinOfFields(s[1..]);
      if s[0] == ',' {
        assert Join(Fields(s)) == "" + "," + Join(rest);
      } else if |rest| == 1 {
        assert Join(Fields(s)) == [s[0]] + rest[0];
      } else {
        assert Join(Fields(s)) == ([s[0]] + rest[0]) + "," + Join(rest[1..]);
        assert Join(rest) == rest[0] + "," + Join(rest[1..]);
      }
      assert [s[0]] + s[1..] == s;
    }
  }

  lemma {:induction false} FieldsAfterPiece(a: string, b: string)
    requires ',' !in a
    ensures Fields(a + "," + b) == [a] + Fields(b)
    decreases |a|
  {
    if |a| == 0 {
      assert ("" + "," + b)[1..] == b;
    } else {
      assert (a + "," + b)[1..] == a[1..] + "," + b;
      FieldsAfterPiece(a[1..], b);
      assert [a[0]] + a[1..] == a;
    }
  }

  lemma {:induction false} FieldsOfPiece(a: string)
    requires ',' !in a
    ensures Fields(a) == [a]
    decreases |a|
  {
    if |a| > 0 {
      FieldsOfPiece(a[1..]);
      assert [a[0]] + a[1..] == a;
    }
  }

  /** Splitting a comma-join at every comma recovers the parts, provided no
      part holds a comma of its own. */
  lemma {:induction false} FieldsOfJoin(parts: seq<string>)
    requires |parts| > 0
    requires forall i :: 0 <= i < |parts| ==> ',' !in parts[i]
    ensures Fields(Join(parts)) == parts
    decreases |parts|
  {
    if |parts| == 1 {
      FieldsOfPiece(parts[0]);
    } else {
      FieldsOfJoin(parts[1..]);
      FieldsAfterPiece(parts[0], Join(parts[1..]));
    }
  }

  /** `split(",")` undoes a comma-join of two or more comma-free parts whose
      last part is not empty. */
  lemma SplitOfJoin(parts: seq<string>)
    requires |parts| >= 2
    requires forall i :: 0 <= i < |parts| ==> ',' !in parts[i]
    requires parts[|parts| - 1] != ""
    ensures Split(Join(parts)) == parts
  {
    FieldsOfJoin(parts);
    var j := Join(parts);
    assert j == parts[0] + "," + Join(parts[1..]);
    assert j[|parts[0]|] == ',';
  }
}

=== FILE: manager.dfy ===
/** `StudentManager`'s in-memory operations over the ordered store. Every
    mutating operation returns the new store; `saveToFile` after it is
    `Storage.Save` of that store. */
module Manager {
  import opened Results
  import opened JavaInt
  import opened JavaString
  import opened Record

  /** What a mutating call reports, and the store after it. */
  datatype Edit = Edit(applied: bool, students: seq<Student>)

  /** Some record in the store carries `id`. */
  predicate HasId(students: seq<Student>, id: int) {
    exists i :: 0 <= i < |students| && students[i].id == id
  }

  /** No two records share an id. */
  predicate UniqueIds(students: seq<Student>) {
    forall i, j :: 0 <= i < j < |students| ==> students[i].id != students[j].id
  }

  /** Position of the first record carrying `id`: where the for-each loop of
      `findStudentById` returns. */
  function IndexOfId(students: seq<Student>, id: int): (r: Option<nat>)
    ensures r.Some? ==> r.value < |students| && students[r.value].id == id
    ensures r.Some? ==> forall j :: 0 <= j < r.value ==> students[j].id != id
    ensures r.None? <==> !HasId(students, id)
    decreases |students|
  {
    if |students| == 0 then None
    else if students[0].id == id then Some(0)
    else
      match IndexOfId(students[1..], id)
      case None => None
      case Some(k) => Some(k + 1)
  }

  /** `findStudentById`: the first record with that id, or `null` (`None`). */
  function FindById(students: seq<Student>, id: int): (r: Option<Student>)
    ensures r.Some? <==> HasId(students, id)
    ensures r.Some? ==> r.value.id == id
    ensures r.Some? ==>
      exists k :: 0 <= k < |students| && students[k] == r.value &&
        forall j :: 0 <= j < k ==> students[j].id != id
  {
    match IndexOfId(students, id)
    case None => None
    case Some(k) => Some(students[k])
  }

  /** `isIdExists`: `findStudentById` found something. */
  function IdExists(students: seq<Student>, id: int): (r: bool)
    ensures r <==> exists i :: 0 <= i < |students| && students[i].id == id
  {
    FindById(students, id).Some?
  }

  /** `getStudentCount`. */
  function Count(students: seq<Student>): nat {
    |students|
  }

  /** In a store with unique ids, the record found is the only one with that id. */
  lemma FindByIdUnique(students: seq<Student>, id: int, i: nat)
    requires UniqueIds(students)
    requires i < |students| && students[i].id == id
    ensures FindById(students, id) == Some(students[i])
  {
  }

  // ----- search by name -----

  /** The name-search test: the lower-cased name contains the lower-cased
      query. */
  predicate Matches(s: Student, query: string) {
    Contains(ToLowerCase(s.name), ToLowerCase(query))
  }

  /** `findStudentsByName`: the matching records, in store order. */
  function FindByName(students: seq<Student>, query: string): (r: seq<Student>)
    ensures |r| <= |students|
    ensures forall x :: x in r <==> x in students && Matches(x, query)
    decreases |students|
  {
    if |students| == 0 then []
    else if Matches(students[0], query) then [students[0]] + FindByName(students[1..], query)
    else FindByName(students[1..], query)
  }

  /** The search is an order-preserving filter: searching two stretches of
      the store is searching each and concatenating the results. */
  lemma {:induction false} FindByNameAppend(a: seq<Student>, b: seq<Student>, query: string)
    ensures FindByName(a + b, query) == FindByName(a, query) + FindByName(b, query)
    decreases |a|
  {
    if |a| == 0 {
      assert a + b == b;
    } else {
      assert (a + b)[1..] == a[1..] + b;
      assert (a + b)[0] == a[0];
      FindByNameAppend(a[1..], b, query);
    }
  }

  /** An empty query matches every name, so the whole store comes back. */
  lemma {:induction false} FindByNameEmptyQuery(students: seq<Student>)
    ensures FindByName(students, "") == students
    decreases |students|
  {
    if |students| > 0 {
      assert ToLowerCase("") == "";
      ContainsEmpty(ToLowerCase(students[0].name));
      FindByNameEmptyQuery(students[1..]);
      assert students == [students[0]] + students[1..];
    }
  }

  /** Nothing matching gives an empty result, not an error. */
  lemma {:induction false} FindByNameNoMatch(students: seq<Student>, query: string)
    requires forall i :: 0 <= i < |students| ==> !Matches(students[i], query)
    ensures FindByName(students, query) == []
    decreases |students|
  {
    if |students| > 0 {
      assert forall i :: 0 <= i < |students[1..]| ==> students[1..][i] == students[i + 1];
      FindByNameNoMatch(students[1..], query);
    }
  }

  /** The search in a concrete store: "an" finds Anna and Anand, not Bob,
      in store order and whatever the case of the name. */
  lemma SearchScenario()
    ensures var ann := Student(1, "Anna", 20, "A", "a@x");
      var bob := Student(2, "Bob", 21, "B", "b@x");
      var anand := Student(3, "Anand", 22, "C", "c@x");
      FindByName([ann, bob, anand], "an") == [ann, anand]
  {
    var ann := Student(1, "Anna", 20, "A", "a@x");
    var bob := Student(2, "Bob", 21, "B", "b@x");
    var anand := Student(3, "Anand", 22, "C", "c@x");
    assert ToLowerCase("an") == "an";
    assert ToLowerCase("Anna") == "anna";
    assert ToLowerCase("Bob") == "bob";
    assert ToLowerCase("Anand") == "anand";
    assert StartsWith("anna", "an");
    assert StartsWith("anand", "an");
    assert !Contains("", "an");
    assert "b"[1..] == "";
    assert !Contains("b", "an");
    assert "ob"[1..] == "b";
    assert "ob"[0] != "an"[0];
    assert !Contains("ob", "an");
    assert "bob"[1..] == "ob";
    assert "bob"[..2][0] != "an"[0];
    assert !Contains("bob", "an");
    var s := [ann, bob, anand];
    assert s[1..] == [bob, anand];
    assert s[1..][1..] == [anand];
    assert FindByName([anand], "an") == [anand];
    assert FindByName([bob, anand], "an") == [anand];
  }

  // ----- delete -----

  /** `deleteStudent`: removes the first record with that id and reports
      true, or reports false and leaves the store as it was. */
  function Delete(students: seq<Student>, id: int): (r: Edit)
    ensures !HasId(students, id) ==> !r.applied && r.students == students
    ensures HasId(students, id) ==> r.applied && |r.students| == |students| - 1
    ensures HasId(students, id) ==>
      var k := IndexOfId(students, id).value;
      && (forall j :: 0 <= j < k ==> r.students[j] == students[j])
      && (forall j :: k <= j < |r.students| ==> r.students[j] == students[j + 1])
      && multiset(r.students) + multiset{students[k]} == multiset(students)
  {
    match IndexOfId(students, id)
    case None => Edit(false, students)
    case Some(k) =>
      assert students == students[..k] + [students[k]] + students[k + 1..];
      Edit(true, students[..k] + students[k + 1..])
  }

  /** Delete takes out a record only: every other id present before is still
      present, and (ids being unique) the deleted id is gone. */
  lemma DeleteKeepsOtherIds(students: seq<Student>, id: int, other: int)
    requires other != id
    ensures HasId(Delete(students, id).students, other) <==> HasId(students, other)
  {
    var r := Delete(students, id).students;
    if HasId(students, id) {
      var k := IndexOfId(students, id).value;
      if HasId(students, other) {
        var i :| 0 <= i < |students| && students[i].id == other;
        if i < k {
          assert r[i].id == other;
        } else {
          assert r[i - 1].id == other;
        }
      }
      if HasId(r, other) {
        var i :| 0 <= i < |r| && r[i].id == other;
        if i < k {
          assert students[i].id == other;
        } else {
          assert students[i + 1].id == other;
        }
      }
    }
  }

  /** With unique ids, the deleted id no longer exists and the ids stay unique. */
  lemma DeleteRemovesId(students: seq<Student>, id: int)
    requires UniqueIds(students)
    ensures !HasId(Delete(students, id).students, id)
    ensures UniqueIds(Delete(students, id).students)
  {
    var r := Delete(students, id).students;
    if HasId(students, id) {
      var k := IndexOfId(students, id).value;
      forall i | 0 <= i < |r| ensures r[i].id != id {
        if i >= k {
          assert r[i] == students[i + 1];
          assert students[k].id == id;
        }
      }
      forall i, j | 0 <= i < j < |r| ensures r[i].id != r[j].id {
        var i' := if i < k then i else i + 1;
        var j' := if j < k then j else j + 1;
        assert r[i] == students[i'] && r[j] == students[j'];
      }
    }
  }

  // ----- add -----

  /** `addStudent`: appends the record, with no checks of its own. */
  function AddStudent(students: seq<Student>, s: Student): (r: seq<Student>)
    ensures Count(r) == Count(students) + 1
    ensures r[..|students|] == students && r[|students|] == s
  {
    students + [s]
  }

  /** `getStudentCount` follows the edits: an add raises it by one, a delete
      that finds its id lowers it by one, and anything else keeps it. */
  lemma CountTracksEdits(students: seq<Student>, s: Student, id: int, input: UpdateInput)
    ensures Count(AddStudent(students, s)) == Count(students) + 1
    ensures Count(Delete(students, id).students) == if HasId(students, id) then Count(students) - 1 else Count(students)
    ensures Count(Update(students, id, input).students) == Count(students)
  {
  }

  /** A record added under a fresh id is what `findStudentById` returns. */
  lemma FindAfterAdd(students: seq<Student>, s: Student)
    requires !HasId(students, s.id)
    ensures FindById(AddStudent(students, s), s.id) == Some(s)
    ensures IdExists(AddStudent(students, s), s.id)
  {
    var r := AddStudent(students, s);
    assert r[|students|].id == s.id;
    assert forall j :: 0 <= j < |students| ==> r[j].id != s.id;
  }

  /** Deleting the id just added under a fresh id restores the store. */
  lemma DeleteUndoesAdd(students: seq<Student>, s: Student)
    requires !HasId(students, s.id)
    ensures Delete(AddStudent(students, s), s.id) == Edit(true, students)
  {
    var r := AddStudent(students, s);
    assert r[|students|].id == s.id;
    assert IndexOfId(r, s.id) == Some(|students|);
    assert r[..|students|] == students;
  }

  // ----- update -----

  /** The four lines `updateStudent` reads from the console, in the order it
      asks for them: new name, new age, new grade, new email. An empty (after
      `trim`) line means "keep the current value". */
  datatype UpdateInput = UpdateInput(name: string, age: string, grade: string, email: string)

  /** The age `updateStudent` sets from its age line: one that is not blank,
      parses, and lies strictly between 0 and 150. Anything else keeps the
      current age. */
  function NewAge(line: string): (r: Option<Int32>)
    ensures r.Some? ==> 0 < r.value < 150 && ParseInt(Trim(line)) == Some(r.value)
    ensures r.None? ==>
      (Trim(line) == "" || ParseInt(Trim(line)).None? || !(0 < ParseInt(Trim(line)).value < 150))
  {
    var t := Trim(line);
    if t == "" then None
    else
      match ParseInt(t)
      case None => None
      case Some(a) => if 0 < a < 150 then Some(a) else None
  }

  /** The record after `updateStudent`'s in-place setter calls. */
  function Amend(s: Student, input: UpdateInput): (r: Student)
    ensures r.id == s.id
    ensures Trim(input.name) != "" ==> r.name == Trim(input.name)
    ensures Trim(input.name) == "" ==> r.name == s.name
    ensures NewAge(input.age).Some? ==> r.age == NewAge(input.age).value
    ensures NewAge(input.age).None? ==> r.age == s.age
    ensures Trim(input.grade) != "" ==> r.grade == Trim(input.grade)
    ensures Trim(input.grade) == "" ==> r.grade == s.grade
    ensures Trim(input.email) != "" ==> r.email == Trim(input.email)
    ensures Trim(input.email) == "" ==> r.email == s.email
  {
    var name := Trim(input.name);
    var grade := Trim(input.grade);
    var email := Trim(input.email);
    Student(
      s.id,
      if name != "" then name else s.name,
      match NewAge(input.age) case Some(a) => a case None => s.age,
      if grade != "" then grade else s.grade,
      if email != "" then email else s.email)
  }

  /** `updateStudent`: amends the first record with that id and reports
      true, or reports false and leaves the store as it was. */
  function Update(students: seq<Student>, id: int, input: UpdateInput): (r: Edit)
    ensures !HasId(students, id) ==> !r.applied && r.students == students
    ensures HasId(students, id) ==> r.applied && |r.students| == |students|
    ensures HasId(students, id) ==>
      var k := IndexOfId(students, id).value;
      && r.students[k] == Amend(students[k], input)
      && forall j :: 0 <= j < |students| && j != k ==> r.students[j] == students[j]
  {
    match IndexOfId(students, id)
    case None => Edit(false, students)
    case Some(k) => Edit(true, students[k := Amend(students[k], input)])
  }

  /** Updating never changes an id at any position. */
  lemma UpdateKeepsIds(students: seq<Student>, id: int, input: UpdateInput)
    ensures var after := Update(students, id, input).students;
      |after| == |students| && forall j :: 0 <= j < |after| ==> after[j].id == students[j].id
  {
    var after := Update(students, id, input).students;
    if HasId(students, id) {
      var k := IndexOfId(students, id).value;
      forall j | 0 <= j < |after| ensures after[j].id == students[j].id {
        if j == k {
          assert after[k] == Amend(students[k], input);
        }
      }
    }
  }

  /** So an update keeps ids unique. */
  lemma UpdateKeepsUniqueIds(students: seq<Student>, id: int, input: UpdateInput)
    requires UniqueIds(students)
    ensures UniqueIds(Update(students, id, input).students)
  {
    UpdateKeepsIds(students, id, input);
  }

  /** Lines that are all blank keep every field: the update reports success
      and the store is unchanged. */
  lemma UpdateBlankKeepsRecord(students: seq<Student>, id: int, input: UpdateInput)
    requires HasId(students, id)
    requires IsBlank(input.name) && IsBlank(input.age) && IsBlank(input.grade) && IsBlank(input.email)
    ensures Update(students, id, input) == Edit(true, students)
  {
    AmendBlank(students[IndexOfId(students, id).value], input);
    UpdateFixedPoint(students, id, input);
  }

  /** An update that leaves the found record as it is leaves the store as it is. */
  lemma UpdateFixedPoint(students: seq<Student>, id: int, input: UpdateInput)
    requires HasId(students, id)
    requires var k := IndexOfId(students, id).value; Amend(students[k], input) == students[k]
    ensures Update(students, id, input) == Edit(true, students)
  {
    var k := IndexOfId(students, id).value;
    var x := students[k];
    UpdateWrites(students, id, input, k, x);
    WriteBack(students, k, x);
  }

  /** Writing back the value already at an index changes nothing. */
  lemma WriteBack(students: seq<Student>, k: nat, x: Student)
    requires k < |students| && students[k] == x
    ensures students[k := x] == students
  {
  }

  /** An update of a present id writes the amended record at its index. */
  lemma UpdateWrites(students: seq<Student>, id: int, input: UpdateInput, k: nat, amended: Student)
    requires IndexOfId(students, id) == Some(k)
    requires amended == Amend(students[k], input)
    ensures Update(students, id, input) == Edit(true, students[k := amended])
  {
  }

  lemma AmendBlank(s: Student, input: UpdateInput)
    requires IsBlank(input.name) && IsBlank(input.age) && IsBlank(input.grade) && IsBlank(input.email)
    ensures Amend(s, input) == s
  {
    assert Trim(input.name) == [] && Trim(input.grade) == [] && Trim(input.email) == [];
    assert Trim(input.age) == [];
    assert NewAge(input.age).None?;
  }

  /** Supplying only a name changes only the name. */
  lemma UpdateNameOnly(students: seq<Student>, id: int, name: string)
    requires HasId(students, id) && !IsBlank(name)
    ensures var k := IndexOfId(students, id).value;
      var after := Update(students, id, UpdateInput(name, "", "", "")).students[k];
      after == students[k].(name := Trim(name))
  {
    assert IsBlank("");
  }

  /** Applying the same update twice is the same as applying it once. */
  lemma UpdateIdempotent(students: seq<Student>, id: int, input: UpdateInput)
    ensures var once := Update(students, id, input).students;
      Update(once, id, input).students == once
  {
    var once := Update(students, id, input).students;
    if HasId(students, id) {
      var k := IndexOfId(students, id).value;
      UpdateKeepsIds(students, id, input);
      IndexOfIdFollowsIds(students, once, id);
      AmendIdempotent(students[k], input);
      assert once[k] == Amend(students[k], input);
      UpdateFixedPoint(once, id, input);
    }
  }

  /** Where an id is first found depends only on the ids, position by position. */
  lemma {:induction false} IndexOfIdFollowsIds(a: seq<Student>, b: seq<Student>, id: int)
    requires |a| == |b|
    requires forall j :: 0 <= j < |a| ==> a[j].id == b[j].id
    ensures IndexOfId(a, id) == IndexOfId(b, id)
    decreases |a|
  {
    if |a| > 0 {
      IndexOfIdFollowsIds(a[1..], b[1..], id);
    }
  }

  lemma AmendIdempotent(s: Student, input: UpdateInput)
    ensures Amend(Amend(s, input), input) == Amend(s, input)
  {
    TrimIdempotent(input.name);
    TrimIdempotent(input.grade);
    TrimIdempotent(input.email);
  }

  /** The update path does not check the email for `@`: any non-blank email
      line is stored as it is, trimmed. */
  lemma UpdateSkipsEmailCheck(students: seq<Student>, id: int, input: UpdateInput)
    requires HasId(students, id)
    requires Trim(input.email) != "" && '@' !in Trim(input.email)
    ensures var k := IndexOfId(students, id).value;
      '@' !in Update(students, id, input).students[k].email
  {
  }
}

=== FILE: record.dfy ===
/** The `Student` entity and its one-line CSV form. */
module Record {
  import opened Results
  import opened JavaInt
  import opened JavaString

  /** One student. `id` and `age` are Java `int`s; the three text fields are
      free text, constrained only by whoever builds the record. */
  datatype Student = Student(id: Int32, name: string, age: Int32, grade: string, email: string)

  /** Why `fromCSV` throws: an index past the end of the split array
      (`ArrayIndexOutOfBoundsException`), or a part that `parseInt` rejects
      (`NumberFormatException`). */
  datatype CsvError = MissingPart(index: nat) | NotAnInt(index: nat, text: string)

  /** A text field that survives the comma-joined line: no comma inside. */
  predicate CommaFree(s: string) {
    ',' !in s
  }

  /** The condition under which a record's CSV line reads back as the same
      record: no text field holds a comma, and the email, being the last
      part, is not empty (`split` would drop it). */
  predicate CsvSafe(s: Student) {
    CommaFree(s.name) && CommaFree(s.grade) && CommaFree(s.email) && s.email != ""
  }

  /** The five parts of a record's line, in field order. */
  function CsvParts(s: Student): seq<string> {
    [ToString(s.id), s.name, ToString(s.age), s.grade, s.email]
  }

  /** `toCSV`: the five fields joined by commas, nothing escaped. */
  function ToCsv(s: Student): (line: string)
    ensures line == Join(CsvParts(s))
  {
    var p := CsvParts(s);
    assert Join(p[3..]) == s.grade + "," + s.email;
    assert Join(p[2..]) == ToString(s.age) + "," + Join(p[3..]);
    assert Join(p[1..]) == s.name + "," + Join(p[2..]);
    ToString(s.id) + "," + s.name + "," + ToString(s.age) + "," + s.grade + "," + s.email
  }

  /** `fromCSV`: split on commas, then read the parts in Java's evaluation
      order — `parseInt(parts[0])`, `parts[1]`, `parseInt(parts[2])`,
      `parts[3]`, `parts[4]` — so the first step that throws decides the
      error. Parts after the fifth are ignored. */
  function FromCsv(line: string): (r: Result<Student, CsvError>)
    ensures var parts := Split(line);
      r.Success? <==>
        |parts| >= 5 && ParseInt(parts[0]).Some? && ParseInt(parts[2]).Some?
    ensures var parts := Split(line);
      r.Success? ==>
        && r.value.id == ParseInt(parts[0]).value && r.value.name == parts[1]
        && r.value.age == ParseInt(parts[2]).value && r.value.grade == parts[3]
        && r.value.email == parts[4]
  {
    var parts := Split(line);
    if |parts| < 1 then Failure(MissingPart(0))
    else if ParseInt(parts[0]).None? then Failure(NotAnInt(0, parts[0]))
    else if |parts| < 2 then Failure(MissingPart(1))
    else if |parts| < 3 then Failure(MissingPart(2))
    else if ParseInt(parts[2]).None? then Failure(NotAnInt(2, parts[2]))
    else if |parts| < 4 then Failure(MissingPart(3))
    else if |parts| < 5 then Failure(MissingPart(4))
    else Success(Student(ParseInt(parts[0]).value, parts[1], ParseInt(parts[2]).value, parts[3], parts[4]))
  }

  /** The failure reported is the first one Java's evaluation order meets. */
  lemma FromCsvErrorOrder(line: string)
    ensures var parts := Split(line); var r := FromCsv(line);
      && (|parts| == 0 ==> r == Failure(MissingPart(0)))
      && (|parts| > 0 && ParseInt(parts[0]).None? ==> r == Failure(NotAnInt(0, parts[0])))
      && (|parts| > 0 && ParseInt(parts[0]).Some? && |parts| < 3 ==> r == Failure(MissingPart(|parts|)))
      && (|parts| >= 3 && ParseInt(parts[0]).Some? && ParseInt(parts[2]).None? ==>
            r == Failure(NotAnInt(2, parts[2])))
      && (3 <= |parts| < 5 && ParseInt(parts[0]).Some? && ParseInt(parts[2]).Some? ==>
            r == Failure(MissingPart(|parts|)))
  {
    var parts := Split(line);
    if |parts| > 0 && ParseInt(parts[0]).Some? && |parts| < 3 {
      assert |parts| == 1 || |parts| == 2;
    }
  }

  /** The round-trip law: a record whose text fields hold no comma and whose
      email is not empty reads back from its CSV line unchanged. */
  lemma CsvRoundTrip(s: Student)
    requires CsvSafe(s)
    ensures FromCsv(ToCsv(s)) == Success(s)
  {
    var parts := CsvParts(s);
    var line := ToCsv(s);
    SplitOfJoin(parts);
    assert Split(line) == parts;
    ParseToString(s.id);
    ParseToString(s.age);
    assert ParseInt(parts[0]) == Some(s.id) && ParseInt(parts[2]) == Some(s.age);
  }

  /** Without the comma-freedom condition the round trip breaks: a name
      holding a comma never reads back as itself, because the line's second
      part stops at the name's first comma. */
  lemma CommaInNameBreaksRoundTrip(s: Student)
    requires !CommaFree(s.name)
    ensures FromCsv(ToCsv(s)) != Success(s)
  {
    var a, b := SplitAtFirstComma(s.name);
    var idText := ToString(s.id);
    var rest := ToString(s.age) + "," + s.grade + "," + s.email;
    var line := ToCsv(s);
    assert line == idText + "," + (a + "," + (b + "," + rest));
    FieldsAfterPiece(idText, a + "," + (b + "," + rest));
    FieldsAfterPiece(a, b + "," + rest);
    var fields := Fields(line);
    assert fields[1] == a;
    if FromCsv(line).Success? {
      var parts := Split(line);
      assert ',' in line by { assert line[|idText|] == ','; }
      assert parts == fields[..|parts|];
      assert FromCsv(line).value.name == a;
      assert |a| < |s.name|;
    }
  }

  /** A string holding a comma is a comma-free piece, a comma, and the rest. */
  lemma SplitAtFirstComma(x: string) returns (a: string, b: string)
    requires ',' in x
    ensures ',' !in a && x == a + "," + b
  {
    var i :| 0 <= i < |x| && x[i] == ',';
    var k := FirstComma(x, i);
    a, b := x[..k], x[k + 1..];
    assert x == x[..k] + [x[k]] + x[k + 1..];
  }

  ghost function FirstComma(x: string, bound: nat): (k: nat)
    requires bound < |x| && x[bound] == ','
    ensures k <= bound && x[k] == ',' && ',' !in x[..k]
    decreases bound
  {
    if ',' !in x[..bound] then bound
    else
      var j :| 0 <= j < bound && x[..bound][j] == ',';
      FirstComma(x, j)
  }
}

=== FILE: results.dfy ===
/** Optional values and success-or-error results, used where the Java code
    returns null or throws. */
module Results {

  /** A value that may be absent (the Java code's `null`). */
  datatype Option<+T> = None | Some(value: T)

  /** Either a value or the error that stopped the computation. */
  datatype Result<+T, +E> = Success(value: T) | Failure(error: E)
}

=== FILE: storage.dfy ===
/** `saveToFile` and `loadFromFile` as text functions: the file's content is a
    string, and the missing file is `None`. */
module Storage {
  import opened Results
  import opened JavaInt
  import opened JavaString
  import opened Record

  /** The fixed first line of every saved file. */
  const Header: string := "id,name,age,grade,email"

  /** `println`'s line separator: the platform's `line.separator`. */
  datatype Newline = LF | CRLF {
    function Text(): string {
      match this
      case LF => "\n"
      case CRLF => "\r\n"
    }
  }

  predicate IsLineBreak(c: char) {
    c == '\n' || c == '\r'
  }

  /** A line that `readLine` returns whole: no line break inside. */
  predicate OneLine(s: string) {
    forall i :: 0 <= i < |s| ==> !IsLineBreak(s[i])
  }

  /** Index of the first line break in `t`, or `|t|` when there is none. */
  function LineEnd(t: string): (k: nat)
    ensures k <= |t| && OneLine(t[..k])
    ensures k < |t| ==> IsLineBreak(t[k])
    decreases |t|
  {
    if |t| == 0 || IsLineBreak(t[0]) then 0 else 1 + LineEnd(t[1..])
  }

  /** The lines successive `BufferedReader.readLine` calls return: a line ends
      at `\n`, at `\r`, or at `\r\n`; a last line without a break still
      counts; at the end of the text there are no more lines. */
  function Lines(t: string): (r: seq<string>)
    ensures forall i :: 0 <= i < |r| ==> OneLine(r[i])
    decreases |t|
  {
    if |t| == 0 then []
    else
      var k := LineEnd(t);
      if k == |t| then [t]
      else if t[k] == '\r' && k + 1 < |t| && t[k + 1] == '\n' then [t[..k]] + Lines(t[k + 2..])
      else [t[..k]] + Lines(t[k + 1..])
  }

  /** Each line followed by the separator, as successive `println` calls write them. */
  function Printed(lines: seq<string>, nl: Newline): string
    decreases |lines|
  {
    if |lines| == 0 then "" else lines[0] + nl.Text() + Printed(lines[1..], nl)
  }

  /** The CSV lines of the records, in store order. */
  function CsvLines(students: seq<Student>): (r: seq<string>)
    ensures |r| == |students|
    ensures forall i :: 0 <= i < |r| ==> r[i] == ToCsv(students[i])
  {
    seq(|students|, i requires 0 <= i < |students| => ToCsv(students[i]))
  }

  /** `saveToFile`: the header line, then one `toCSV` line per record. */
  function Save(students: seq<Student>, nl: Newline): (text: string)
    ensures StartsWith(text, Header + nl.Text())
  {
    var lines := [Header] + CsvLines(students);
    assert Printed(lines, nl) == Header + nl.Text() + Printed(lines[1..], nl);
    Printed(lines, nl)
  }

  /** The records read from one line after the header: none from a blank
      line (nothing left after `trim`), one from a well-formed line, and the
      `fromCSV` error from any other line. */
  function ReadLine(line: string): (r: Result<seq<Student>, CsvError>)
    ensures IsBlank(line) ==> r == Success([])
    ensures !IsBlank(line) && FromCsv(line).Success? ==> r == Success([FromCsv(line).value])
    ensures !IsBlank(line) && FromCsv(line).Failure? ==> r == Failure(FromCsv(line).error)
  {
    if IsBlank(line) then Success([])
    else
      match FromCsv(line)
      case Failure(e) => Failure(e)
      case Success(s) => Success([s])
  }

  /** Runs two reads in sequence: the first failure ends the run, otherwise
      the records accumulate in order. */
  function Then(x: Result<seq<Student>, CsvError>, y: Result<seq<Student>, CsvError>): (r: Result<seq<Student>, CsvError>)
    ensures r.Success? <==> x.Success? && y.Success?
    ensures x.Failure? ==> r == x
    ensures x == Success([]) ==> r == y
    ensures r.Success? ==> r.value == x.value + y.value
  {
    match x
    case Failure(e) => Failure(e)
    case Success(xs) =>
      match y
      case Failure(e) => Failure(e)
      case Success(ys) => assert xs == [] ==> xs + ys == ys; Success(xs + ys)
  }

  /** The body of `loadFromFile`'s loop over the lines after the header,
      line by line in file order; the first line that throws ends the load. */
  function ParseRecords(lines: seq<string>): (r: Result<seq<Student>, CsvError>)
    ensures r.Success? ==> |r.value| <= |lines|
    decreases |lines|
  {
    if |lines| == 0 then Success([])
    else Then(ReadLine(lines[0]), ParseRecords(lines[1..]))
  }

  /** `loadFromFile` on an existing file: the first line is skipped whatever
      it holds, the rest go through `ParseRecords`. A `fromCSV` exception is
      not caught there (only `IOException` is), so it is a failure of the
      whole load. */
  function Load(text: string): (r: Result<seq<Student>, CsvError>)
    ensures |Lines(text)| <= 1 ==> r == Success([])
    ensures r.Success? ==> |r.value| < |Lines(text)| || r.value == []
  {
    var lines := Lines(text);
    if |lines| == 0 then Success([]) else ParseRecords(lines[1..])
  }

  /** The `StudentManager` constructor: a missing file starts an empty store. */
  function Open(file: Option<string>): Result<seq<Student>, CsvError> {
    match file
    case None => Success([])
    case Some(text) => Load(text)
  }

  /** A record that survives a save and a load: CSV-safe, and no line break
      in any text field. */
  predicate Storable(s: Student) {
    CsvSafe(s) && OneLine(s.name) && OneLine(s.grade) && OneLine(s.email)
  }

  lemma LineEndOfPrinted(l: string, nl: Newline, rest: string)
    requires OneLine(l)
    ensures LineEnd(l + nl.Text() + rest) == |l|
    decreases |l|
  {
    var t := l + nl.Text() + rest;
    if |l| > 0 {
      assert !IsLineBreak(l[0]);
      assert t[1..] == l[1..] + nl.Text() + rest;
      LineEndOfPrinted(l[1..], nl, rest);
    }
  }

  /** Reading back what `println` wrote gives the same lines, as long as none
      of them holds a line break. */
  lemma {:induction false} LinesOfPrinted(lines: seq<string>, nl: Newline)
    requires forall i :: 0 <= i < |lines| ==> OneLine(lines[i])
    ensures Lines(Printed(lines, nl)) == lines
    decreases |lines|
  {
    if |lines| > 0 {
      var l := lines[0];
      var rest := Printed(lines[1..], nl);
      var t := l + nl.Text() + rest;
      assert Printed(lines, nl) == t;
      LineEndOfPrinted(l, nl, rest);
      assert t[..|l|] == l;
      LinesOfPrinted(lines[1..], nl);
      match nl
      case LF =>
        assert t[|l|] == '\n';
        assert t[|l| + 1..] == rest;
      case CRLF =>
        assert t[|l|] == '\r' && t[|l| + 1] == '\n';
        assert t[|l| + 2..] == rest;
    }
  }

  /** A record's CSV line is one non-blank line. */
  lemma CsvLineShape(s: Student)
    requires OneLine(s.name) && OneLine(s.grade) && OneLine(s.email)
    ensures OneLine(ToCsv(s)) && !IsBlank(ToCsv(s))
  {
    var line := ToCsv(s);
    var idText := ToString(s.id);
    assert line[|idText|] == ',';
    forall i | 0 <= i < |line| ensures !IsLineBreak(line[i]) {
      var ageText := ToString(s.age);
      var n1 := |idText| + 1;
      var n2 := n1 + |s.name| + 1;
      var n3 := n2 + |ageText| + 1;
      var n4 := n3 + |s.grade| + 1;
      if i < |idText| {
        assert line[i] == idText[i];
      } else if n1 <= i < n2 - 1 {
        assert line[i] == s.name[i - n1];
      } else if n2 <= i < n3 - 1 {
        assert line[i] == ageText[i - n2];
      } else if n3 <= i < n4 - 1 {
        assert line[i] == s.grade[i - n3];
      } else if n4 <= i {
        assert line[i] == s.email[i - n4];
      }
    }
  }

  /** A storable record's own line reads back as exactly that record. */
  lemma ReadCsvLine(s: Student)
    requires Storable(s)
    ensures ReadLine(ToCsv(s)) == Success([s])
  {
    CsvLineShape(s);
    CsvRoundTrip(s);
  }

  /** The CSV lines of storable records parse back to the records, in order. */
  lemma {:induction false} ParseCsvLines(students: seq<Student>)
    requires forall i :: 0 <= i < |students| ==> Storable(students[i])
    ensures ParseRecords(CsvLines(students)) == Success(students)
    decreases |students|
  {
    if |students| > 0 {
      var lines := CsvLines(students);
      var s, rest := students[0], students[1..];
      CsvLinesTail(students);
      ReadCsvLine(s);
      ParseCsvLines(rest);
      assert ParseRecords(lines) == Then(Success([s]), Success(rest));
      assert students == [s] + rest;
    }
  }

  lemma CsvLinesTail(students: seq<Student>)
    requires |students| > 0
    ensures CsvLines(students)[0] == ToCsv(students[0])
    ensures CsvLines(students)[1..] == CsvLines(students[1..])
  {
  }

  /** Load-after-save: reading a saved store yields the same records in the
      same order, on either line separator. */
  lemma LoadAfterSave(students: seq<Student>, nl: Newline)
    requires forall i :: 0 <= i < |students| ==> Storable(students[i])
    ensures Load(Save(students, nl)) == Success(students)
  {
    var lines := [Header] + CsvLines(students);
    SavedLinesOneLine(students);
    LinesOfPrinted(lines, nl);
    assert lines[1..] == CsvLines(students);
    ParseCsvLines(students);
  }

  /** Every line `saveToFile` writes for storable records is one line. */
  lemma SavedLinesOneLine(students: seq<Student>)
    requires forall i :: 0 <= i < |students| ==>
      OneLine(students[i].name) && OneLine(students[i].grade) && OneLine(students[i].email)
    ensures var lines := [Header] + CsvLines(students);
      forall i :: 0 <= i < |lines| ==> OneLine(lines[i])
  {
    var lines := [Header] + CsvLines(students);
    forall i | 0 <= i < |lines| ensures OneLine(lines[i]) {
      if i > 0 {
        assert lines[i] == ToCsv(students[i - 1]);
        CsvLineShape(students[i - 1]);
      }
    }
  }

  /** The `StudentManager` constructor: with no file the store starts empty,
      and with the file the last save wrote it starts as the saved store. */
  lemma OpenAfterSave(students: seq<Student>, nl: Newline)
    requires forall i :: 0 <= i < |students| ==> Storable(students[i])
    ensures Open(None) == Success([])
    ensures Open(Some(Save(students, nl))) == Success(students)
  {
    LoadAfterSave(students, nl);
  }

  /** The saved text holds one line per record after the header, so the
      record count is the number of lines less one. */
  lemma SavedLineCount(students: seq<Student>, nl: Newline)
    requires forall i :: 0 <= i < |students| ==>
      OneLine(students[i].name) && OneLine(students[i].grade) && OneLine(students[i].email)
    ensures Lines(Save(students, nl)) == [Header] + CsvLines(students)
  {
    SavedLinesOneLine(students);
    LinesOfPrinted([Header] + CsvLines(students), nl);
  }

  /** Reading is line by line: the records of two stretches of lines are
      the records of the first followed by those of the second, and a
      malformed line in the first stretch is the error reported. */
  lemma {:induction false} ParseRecordsAppend(a: seq<string>, b: seq<string>)
    ensures ParseRecords(a + b) == Then(ParseRecords(a), ParseRecords(b))
    decreases |a|
  {
    if |a| == 0 {
      assert a + b == b;
    } else {
      var ab := a + b;
      assert ab[1..] == a[1..] + b;
      assert ab[0] == a[0];
      ParseRecordsAppend(a[1..], b);
      ThenAssociative(ReadLine(a[0]), ParseRecords(a[1..]), ParseRecords(b));
    }
  }

  lemma ThenAssociative(x: Result<seq<Student>, CsvError>, y: Result<seq<Student>, CsvError>, z: Result<seq<Student>, CsvError>)
    ensures Then(x, Then(y, z)) == Then(Then(x, y), z)
  {
    if x.Success? && y.Success? && z.Success? {
      assert x.value + (y.value + z.value) == (x.value + y.value) + z.value;
    }
  }

  /** A line that holds something besides blanks and does not parse makes
      the whole stretch fail; with none, the stretch parses. */
  lemma {:induction false} ParseRecordsFailsIff(lines: seq<string>)
    ensures ParseRecords(lines).Failure? <==>
      exists i :: 0 <= i < |lines| && !IsBlank(lines[i]) && FromCsv(lines[i]).Failure?
    decreases |lines|
  {
    if |lines| > 0 {
      ParseRecordsFailsIff(lines[1..]);
      if exists i :: 0 <= i < |lines[1..]| && !IsBlank(lines[1..][i]) && FromCsv(lines[1..][i]).Failure? {
        var i :| 0 <= i < |lines[1..]| && !IsBlank(lines[1..][i]) && FromCsv(lines[1..][i]).Failure?;
        assert lines[i + 1] == lines[1..][i];
      }
      if exists i :: 0 <= i < |lines| && !IsBlank(lines[i]) && FromCsv(lines[i]).Failure? {
        var i :| 0 <= i < |lines| && !IsBlank(lines[i]) && FromCsv(lines[i]).Failure?;
        if i > 0 {
          assert lines[1..][i - 1] == lines[i];
        }
      }
    }
  }

  /** `loadFromFile` fails exactly when some line after the first is neither
      blank nor a well-formed record line. */
  lemma LoadFailsIff(text: string)
    ensures var lines := Lines(text);
      Load(text).Failure? <==>
        exists i :: 1 <= i < |lines| && !IsBlank(lines[i]) && FromCsv(lines[i]).Failure?
  {
    var lines := Lines(text);
    if |lines| > 0 {
      ParseRecordsFailsIff(lines[1..]);
      if exists i :: 1 <= i < |lines| && !IsBlank(lines[i]) && FromCsv(lines[i]).Failure? {
        var i :| 1 <= i < |lines| && !IsBlank(lines[i]) && FromCsv(lines[i]).Failure?;
        assert lines[1..][i - 1] == lines[i];
      }
      if exists i :: 0 <= i < |lines[1..]| && !IsBlank(lines[1..][i]) && FromCsv(lines[1..][i]).Failure? {
        var i :| 0 <= i < |lines[1..]| && !IsBlank(lines[1..][i]) && FromCsv(lines[1..][i]).Failure?;
        assert lines[i + 1] == lines[1..][i];
      }
    }
  }

  /** Loading does not check id uniqueness: a saved file holding the same
      record twice loads into a store with a repeated id. */
  lemma LoadKeepsDuplicateIds(nl: Newline)
    ensures exists text: string ::
      (Load(text).Success? && |Load(text).value| == 2 && Load(text).value[0].id == Load(text).value[1].id)
  {
    var s := Student(1, "Ann", 20, "A", "ann@x.com");
    assert CsvSafe(s) && OneLine(s.name) && OneLine(s.grade) && OneLine(s.email);
    LoadAfterSave([s, s], nl);
    var text := Save([s, s], nl);
    assert Load(text) == Success([s, s]);
  }

  /** The unescaped delimiter: after any storable records, a record whose
      name holds a comma (and no line break) is saved, but the saved file
      does not load back to the store. */
  lemma CommaInNameNotReloaded(students: seq<Student>, s: Student, nl: Newline)
    requires forall i :: 0 <= i < |students| ==> Storable(students[i])
    requires OneLine(s.name) && OneLine(s.grade) && OneLine(s.email)
    requires !CommaFree(s.name)
    ensures Load(Save(students + [s], nl)) != Success(students + [s])
  {
    var line := ToCsv(s);
    LoadOfLastLine(students, s, nl);
    CommaInNameBreaksRoundTrip(s);
    ThenLastLine(students, line, s);
  }

  /** Saving storable records and then one more record, and loading the
      result, reads the storable records back and then the last line. */
  lemma LoadOfLastLine(students: seq<Student>, s: Student, nl: Newline)
    requires forall i :: 0 <= i < |students| ==> Storable(students[i])
    requires OneLine(s.name) && OneLine(s.grade) && OneLine(s.email)
    ensures Load(Save(students + [s], nl)) == Then(Success(students), ReadLine(ToCsv(s)))
  {
    var all := students + [s];
    var line := ToCsv(s);
    SavedLineCount(all, nl);
    CsvLinesSnoc(students, s);
    assert Load(Save(all, nl)) == ParseRecords(CsvLines(students) + [line]);
    ParseRecordsAppend(CsvLines(students), [line]);
    ParseCsvLines(students);
    ParseOneLine(line);
  }

  lemma CsvLinesSnoc(students: seq<Student>, s: Student)
    ensures CsvLines(students + [s]) == CsvLines(students) + [ToCsv(s)]
  {
  }

  lemma ParseOneLine(line: string)
    ensures ParseRecords([line]) == ReadLine(line)
  {
    var r := ReadLine(line);
    assert ParseRecords([line]) == Then(r, Success([]));
    if r.Success? {
      assert r.value + [] == r.value;
    }
  }

  /** When the records read so far are followed by one more line, the
      store ends in a given record only if that line is that record's. */
  lemma ThenLastLine(xs: seq<Student>, line: string, s: Student)
    ensures Then(Success(xs), ReadLine(line)) == Success(xs + [s]) ==> FromCsv(line) == Success(s)
  {
    var r := ReadLine(line);
    if r.Success? && xs + r.value == xs + [s] {
      assert r.value == (xs + r.value)[|xs|..];
      assert r.value == [s];
    }
  }
}
